=== FILE: README.md ===
# DNS responder core, modelled in Dafny

The system is a small local-network DNS responder with a web page for
self-registration. A host POSTs a name to the web page, and the responder
stores that name, lower-cased, in a case-insensitive dictionary together
with the host's IPv4 address. When a UDP DNS query arrives, the responder:

1. reads the question name as length-prefixed labels starting at offset 12;
2. keeps the text before the first `.` and lower-cases it (the "base name");
3. looks the base name up in the dictionary;
4. builds the reply in a 512-byte buffer.

On a hit, the reply carries one A record with a 30-second TTL. On a miss,
the low RCODE bits 0x03 are or-ed into the flags, which gives RCODE 3
(name error) when the query's RCODE field is 0. A datagram whose parsing or reply
construction throws gets no reply at all.

This project models that datagram path as pure functions on byte
sequences. It then proves what the path does for every input: well-formed
ones, truncated ones and over-long ones.

Modules:

- `Wrappers`: `Option`, used for the C# `null` and for the exception paths.
- `Bytes`: bytes as integers in 0..255, the bitwise OR used on the flag
  bytes, zero fill and `Array.Resize`.
- `Text`: ASCII decoding, ASCII lower-casing, the .NET white-space test,
  and `Split`/`Join` on a separator character.
- `Question`:
  - the wire form of a name (`EncodeName`) and the name walk
    `ParseLabels`/`ExtractDomainName`, proved sound and complete against
    `EncodeName`;
  - the base-name split.
- `HostTable`: the dictionary as a map whose keys are all lower-case,
  with `Lookup` (`TryGetValue`) and `Register` (the guarded upsert).
- `Response`:
  - `BuildResponse` as a function, over the helpers `HitReply`,
    `MissReply` and `FirstZero` (the raw scan for the question's zero
    byte);
  - `BuildResponseInPlace`, which follows the C# buffer code step by step
    with loops, and is proved equal to `BuildResponse`.
- `DnsServer`: `HandleQuery`, which does one iteration of the receive
  loop, plus end-to-end lemmas and a worked example.

Where the code departs from RFC 1035, or reads the same bytes two ways,
the model follows the code:

- The reply sets bit 0x80 of byte 3, which is RA (recursion available,
  section 4.1.1). It never sets AA (authoritative answer), although the
  responder is the only source of the names it answers for; the query's
  own byte-2 bits, AA included, are copied into the reply.
- The flag bits are or-ed into the query's byte 3, so on a miss the
  reply's RCODE is the query's RCODE or-ed with 3. It is 3 when the
  query's RCODE is below 4; a query with RCODE 4 gets RCODE 7.
- A positive reply writes 1 into byte 7 only, the low byte of the 16-bit
  ANCOUNT field (section 4.1.1); the high byte is copied from the query,
  so a query with byte 6 set to 1 gets a reply claiming 257 answers.
- On a miss, the reply is as long as the query and keeps its question
  count, but every byte after the header is zero: the question section
  (section 4.1.2) is not carried.
- Labels of up to 255 bytes are accepted, so the 63-byte limit of section
  2.3.4 is not enforced, and a length byte of 0xC0 or more is read as a
  length rather than as a compression pointer (section 4.1.4).
- The reply builder finds the end of the question by scanning for the
  first zero byte, not by walking the labels. The two end at the same
  byte exactly when no label holds a zero byte
  (`DnsServer.ScanMatchesWalkIff`).

## Model

| member | source | states |
|---|---|---|
| Question.ParseLabels | Dns.Server/DnsServer.cs:353-361 | when the label walk succeeds, it ends inside the request just past a zero terminator, having read fewer labels than bytes |
| Question.ParseLabelsSound | Dns.Server/DnsServer.cs:353-361 | every successful walk read a name that really is encoded at the offset, and ends exactly after its wire form |
| Question.ParseLabelsComplete | Dns.Server/DnsServer.cs:353-361 | whenever the wire form of some label list sits at the offset, the walk returns exactly that list and ends just after it |
| Question.ParseLabelsFailsIff | Dns.Server/DnsServer.cs:355-360 | the walk fails (the C# code throws) exactly when no encoded name starts at the offset |
| Question.NameAtFirst | Dns.Server/DnsServer.cs:355-360 | a name encoded at an offset starts with its first label's length byte and bytes, followed by the encoding of the remaining labels |
| Question.TruncatedLabelFails | Dns.Server/DnsServer.cs:357-358 | a length byte that points past the end of the datagram makes the walk fail |
| Question.UnterminatedFails | Dns.Server/DnsServer.cs:355 | a datagram with no zero byte after the offset makes the walk fail |
| Question.DecodeLabels | Dns.Server/DnsServer.cs:358 | one text per label, and a label's text holds a '.' exactly when the label holds the byte 0x2E, so a '.' inside a label moves the base-name split |
| Question.ExtractDomainName | Dns.Server/DnsServer.cs:350-364 | the name is returned exactly when an encoded name starts at the offset; otherwise there is none |
| Question.ExtractEncoded | Dns.Server/DnsServer.cs:350-364 | for an encoded name, the result is its labels decoded and joined with '.' |
| Question.BaseName | Dns.Server/DnsServer.cs:47 | the base name is the lower-cased text before the first '.', contains no '.', and is the whole name when there is no '.' |
| Question.BaseNameOfLabels | Dns.Server/DnsServer.cs:47 | the base name of a joined name is determined by the first label alone |
| Question.BaseNameOfPlainLabel | Dns.Server/DnsServer.cs:47 | when the first label holds no '.' byte, the base name is that label decoded and lower-cased |
| Question.EncodeName | Dns.Server/DnsServer.cs:355-361 | the wire form of a name (the walk's reference encoder) always ends in the zero terminator |
| Text.Split | Dns.Server/DnsServer.cs:47 | splitting gives at least one part, no part contains the separator, and joining the parts back gives the input |
| Text.SplitJoin | Dns.Server/DnsServer.cs:47 | splitting a join of separator-free parts gives back those parts |
| Text.SplitFirst | Dns.Server/DnsServer.cs:47 | the first part is a separator-free prefix of the input, followed by the separator when shorter than the input |
| Text.SplitNoSeparator | Dns.Server/DnsServer.cs:47 | text without the separator splits into itself alone |
| Text.SplitAtSeparator | Dns.Server/DnsServer.cs:47 | splitting at a separator splits each side separately and concatenates the results |
| Text.SplitJoinFirst | Dns.Server/DnsServer.cs:47 | the first part of a joined list only depends on the list's first element |
| Text.AsciiDecode | Dns.Server/DnsServer.cs:358 | one character per byte, every character is 7-bit, a character equals its byte exactly when the byte is below 0x80, and the text holds '.' exactly when the bytes hold 0x2E |
| Text.LowerLetters | Dns.Server/DnsServer.cs:47 | lower-casing maps each upper-case ASCII letter to its lower-case partner, 32 code points on, and leaves every other character alone |
| Text.LowerIdempotent | Dns.Server/DnsServer.cs:16 | lower-casing twice is lower-casing once, and the result has no upper-case letter |
| Text.LowerPrefix | Dns.Server/DnsServer.cs:47 | lower-casing commutes with taking a prefix |
| Text.IsNullOrWhiteSpace | Dns.Server/DnsServer.cs:214 | `string.IsNullOrWhiteSpace`: null, or every character white space |
| Text.TrimStart | Dns.Server/DnsServer.cs:214 | the reference for the blank test: the suffix left after dropping leading white space, every dropped character white space and the first kept one not |
| Text.NullOrWhiteSpaceTrimmed | Dns.Server/DnsServer.cs:214 | a string is null or white space exactly when it is null or nothing is left of it after trimming its leading white space |
| Text.Join | Dns.Server/DnsServer.cs:363 | `string.Join('.', labels)`: the parts in order with one separator between neighbours |
| Text.JoinShape | Dns.Server/DnsServer.cs:363 | a join starts with its first part, and joining separator-free parts gives exactly one separator fewer than there are parts |
| Text.LowerKeepsWhiteSpace | Dns.Server/DnsServer.cs:205-214 | a name is blank after lower-casing exactly when it was blank before |
| HostTable.Lookup | Dns.Server/DnsServer.cs:297 | a lookup finds an address exactly when some key equals the name up to case, and then it is that key's address |
| HostTable.Accepts | Dns.Server/DnsServer.cs:214 | the registration guard: a name that is not null or blank after lower-casing, and an address |
| HostTable.AcceptsNonBlank | Dns.Server/DnsServer.cs:214 | the guard accepts exactly a present name with at least one character that is not white space, together with a present address |
| HostTable.Register | Dns.Server/DnsServer.cs:205-216 | a rejected registration (missing or blank name, or no address) changes nothing; an accepted one makes every case variant of the name look up the new address, and leaves every other name's lookup unchanged |
| HostTable.RegisterIdempotent | Dns.Server/DnsServer.cs:214-216 | registering the same pair twice is the same as registering it once |
| HostTable.RegisterLastWriteWins | Dns.Server/DnsServer.cs:216 | a later registration under a case variant of the name replaces the earlier one entirely |
| HostTable.RegisterCommutes | Dns.Server/DnsServer.cs:216 | registrations under names that differ beyond case commute |
| HostTable.RegisterAllDistinct | Dns.Server/DnsServer.cs:214-216 | after a run of accepted registrations under distinct names, each name looks up its own address |
| HostTable.LookupUntouched | Dns.Server/DnsServer.cs:216 | registrations under other names do not change a name's lookup |
| HostTable.KeysNonBlank | Dns.Server/DnsServer.cs:214-216 | the table invariant the guard maintains: no key is empty or white space |
| HostTable.RegisterKeepsKeysNonBlank | Dns.Server/DnsServer.cs:214-216 | registration keeps every key non-blank, so a table built by registration never holds a blank key |
| HostTable.BlankNeverMatches | Dns.Server/DnsServer.cs:297 | in a table with non-blank keys, a blank name, the empty one included, matches no entry |
| Bytes.OrSetsHighBit | Dns.Server/DnsServer.cs:294-295 | or-ing in 0x80 sets the top bit |
| Bytes.OrHighThenLowBits | Dns.Server/DnsServer.cs:295-339 | or-ing 0x80 and then 0x83 into byte 3 is the same as or-ing in 0x83 |
| Bytes.OrSetsLowBits | Dns.Server/DnsServer.cs:339 | or-ing in 0x83 sets RA and the two low RCODE bits |
| Bytes.Or | Dns.Server/DnsServer.cs:294-295 | the or-assignment on a flag byte: the result holds every bit of both operands |
| Bytes.OrIsLeast | Dns.Server/DnsServer.cs:294-295 | no byte smaller in bits holds both operands: any byte holding every bit of both holds every bit of their OR |
| Bytes.Resize | Dns.Server/DnsServer.cs:335-340 | resizing keeps the common prefix and pads with zeros up to the new length |
| Response.FirstZero | Dns.Server/DnsServer.cs:303-307 | the scan finds the first zero byte at or after its start, and finds none exactly when there is none |
| Response.AnswerRecord | Dns.Server/DnsServer.cs:314-333 | the answer record is 16 bytes: a compression pointer to the question name at offset 12, TYPE 1 (A), CLASS 1 (IN), the 30-second TTL as a big-endian 32-bit number, RDLENGTH 4 and then the address |
| Response.ReplyHeader | Dns.Server/DnsServer.cs:291-295 | the reply header is the request's 12 header bytes with 0x80 or-ed into bytes 2 and 3 and every other byte unchanged |
| Response.HitReply | Dns.Server/DnsServer.cs:297-336 | a positive reply exists exactly when the question and answer fit both the request and the 512-byte buffer; it then echoes the header with QR and RA set, answer-count low byte 1 and high byte copied from the query, echoes the question, and carries the A record with TTL 30 |
| Response.HitShape | Dns.Server/DnsServer.cs:299-336 | the header, the copied question and the answer record, put together, have the positive reply's layout |
| Response.HitShapeHeader | Dns.Server/DnsServer.cs:291-299 | the positive reply's header echoes the request's with QR and RA set, answer-count low byte 1 and high byte copied from the query |
| Response.HitShapeBody | Dns.Server/DnsServer.cs:301-333 | after the header come the question bytes, the fixed answer prefix and the four address bytes, in that order |
| Response.HitReplyEchoesQuestion | Dns.Server/DnsServer.cs:301-335 | after the header, a positive reply is the request's question bytes followed by the answer record |
| Response.MissReply | Dns.Server/DnsServer.cs:339-341 | a name-error reply is as long as the request, echoes the header with QR set and 0x83 or-ed into byte 3 (RA and the low RCODE bits), keeps the counts, and is zero after the header |
| Response.BuildResponse | Dns.Server/DnsServer.cs:287-348 | a request shorter than a header gets no reply; every reply echoes the header; a registered name gets a positive reply exactly when it fits; an unregistered one always gets a name-error reply |
| Response.CopyQuestion | Dns.Server/DnsServer.cs:301-312 | the copy loop succeeds exactly when the first zero byte and the four bytes after it lie inside both arrays, and leaves the buffer holding the header, those request bytes and then zeros |
| Response.WriteAnswer | Dns.Server/DnsServer.cs:314-335 | writing the answer succeeds exactly when it fits the 512-byte buffer, and the result is the buffer up to the write position followed by the answer |
| Response.HeaderInPlace | Dns.Server/DnsServer.cs:291-295 | the buffer holds the request header with QR and RA set, followed by zeros |
| Response.HitInPlace | Dns.Server/DnsServer.cs:299-336 | the byte-by-byte positive branch produces exactly the positive reply |
| Response.BuildResponseInPlace | Dns.Server/DnsServer.cs:287-348 | the step-by-step buffer code computes exactly `BuildResponse` |
| DnsServer.HandleQuery | Dns.Server/DnsServer.cs:45-58 | a datagram whose name cannot be walked gets no reply; otherwise the base name's lookup decides between a positive reply (when it fits) and a name-error reply, with the header echoed either way |
| DnsServer.FirstZeroSkips | Dns.Server/DnsServer.cs:303-307 | the scan passes over non-zero bytes |
| DnsServer.ScanFindsTerminator | Dns.Server/DnsServer.cs:303-307 | when no label holds a zero byte, the reply builder's scan stops at the terminator the name walk reads |
| DnsServer.ScanSkipsLabel | Dns.Server/DnsServer.cs:303-307 | the scan passes over a zero-free first label and its length byte, after which the rest of the name starts |
| DnsServer.ScanStopsInsideName | Dns.Server/DnsServer.cs:303-307 | when some label holds a zero byte, the scan stops inside the name, before the terminator the walk reads |
| DnsServer.ScanMatchesWalkIff | Dns.Server/DnsServer.cs:303-307 | the scan and the walk end the name at the same byte exactly when no label holds a zero byte |
| DnsServer.ScanDisagreesWithWalk | Dns.Server/DnsServer.cs:303-307 | a concrete query whose single label [0x61, 0x00] makes the walk end at offset 16 while the scan stops at offset 14 |
| DnsServer.TruncatedQueryDropped | Dns.Server/DnsServer.cs:46-58 | a query whose first label runs past the end of the datagram gets no reply |
| DnsServer.AssembledQuery | Dns.Server/DnsServer.cs:303-311 | in a header followed by an encoded name and the type and class bytes, the name is at offset 12 and the scan ends on its terminator |
| DnsServer.AnsweredQuery | Dns.Server/DnsServer.cs:45-53 | a query whose labels hold no zero byte, and whose reply fits 512 bytes, for a registered base name (the first label's text before any '.', up to case) gets exactly this reply: the header with QR and RA set, answer-count low byte 1 and high byte copied from the query, the question, and the A record |
| DnsServer.BlankBaseNameError | Dns.Server/DnsServer.cs:46-53 | with non-blank keys, an encoded query whose base name is blank (the root name, or a first label starting with '.') gets the name-error reply |
| DnsServer.RootQueryError | Dns.Server/DnsServer.cs:46-53 | with non-blank keys, a query for the root name (a lone zero byte at offset 12) gets the name-error reply |
| DnsServer.NameErrorQuery | Dns.Server/DnsServer.cs:45-53 | any encoded query name whose base name is not registered gets the name-error reply |
| DnsServer.RegisteredNameAnswered | Dns.Server/DnsServer.cs:214-216 | once a name is registered, a query whose labels hold no zero byte, whose reply fits 512 bytes, and whose base name (the first label's text before any '.') equals it up to case gets exactly the positive reply carrying the registered address |
| DnsServer.ExampleEncoding | Dns.Server/DnsServer.cs:355-361 | the wire form of mysite.local, byte by byte |
| DnsServer.ExampleBase | Dns.Server/DnsServer.cs:47 | the base name of mysite.local is "mysite" |
| DnsServer.ExampleLookup | Dns.Server/DnsServer.cs:16 | a name registered as "MySite" is found under "mysite" |
| DnsServer.MySiteExample | Dns.Server/DnsServer.cs:45-53 | for the worked example, the reply is exactly the header bytes 12 34 81 80 00 01 00 01 00 00 00 00, followed by the question and the answer |
| DnsServer.MySiteHeaderBytes | Dns.Server/DnsServer.cs:292-299 | the worked example's reply header, byte by byte |
| DnsServer.MySiteAnswerBytes | Dns.Server/DnsServer.cs:314-333 | the worked example's answer record, byte by byte |

## Left out

- The UDP receive loop, the HTTP listener loop, `StartAsync` and `Stop` are left out: they are I/O and cancellation. One loop iteration is `HandleQuery`, and a reply of `None` means nothing is sent.
- The HTML registration page and the `/list` page are left out. The model keeps only their effect on the table: `Register` and `Lookup`.
- Parsing the POST body is left out; `Register` receives the value of the `domain` field as an optional string.
- `GetLocalIPAddress` and the loopback substitution are left out: they need a socket. `Register` takes the address it would have produced, possibly missing, as a parameter.
- Concurrency is left out. The UDP and HTTP loops share the dictionary without locking, and the model treats each registration and each query as atomic.
- IPv6 addresses are left out; an address is four bytes.
- Console logging, and `Program.cs`, which only starts the server, are left out.
- Text.Lower: models `ToLower` and the `OrdinalIgnoreCase` comparer by ASCII case folding only, because culture-specific Unicode case mapping is outside Dafny's character model.
- Text.IsWhiteSpace: lists the Unicode White_Space code points that `char.IsWhiteSpace` accepts; the .NET character tables are not part of this model.
- HostTable.Register: states its effect through `Lookup` for every name, not as an equation on the key set, to keep the proof small.

=== FILE: bytes.dfy ===
/** Byte sequences: a packet is a `seq<byte>`, and a fresh C# `byte[]` is all zeros. */
module Bytes {

  /** An octet, as a range of integers so that offsets and lengths mix freely. */
  type byte = b: int | 0 <= b < 0x100

  /** Every bit of `mask` is set in `x`. */
  predicate HasBits(x: byte, mask: byte)
  {
    (x as bv8) & (mask as bv8) == mask as bv8
  }

  /** The C# `|` on two bytes: the least byte holding every bit of both. */
  function Or(a: byte, b: byte): (r: byte)
    ensures HasBits(r, a) && HasBits(r, b)
  {
    var y := (a as bv8) | (b as bv8);
    BitsRoundTrip(y);
    y as int
  }

  /** No byte below `Or(a, b)` holds every bit of both: any byte carrying
      the bits of `a` and of `b` carries those of `Or(a, b)`. */
  lemma OrIsLeast(a: byte, b: byte, m: byte)
    requires HasBits(m, a) && HasBits(m, b)
    ensures HasBits(m, Or(a, b))
  {
    var y := (a as bv8) | (b as bv8);
    BitsRoundTrip(y);
    assert Or(a, b) as bv8 == y;
  }

  /** Converting an octet to an integer and back is the identity. */
  lemma BitsRoundTrip(x: bv8)
    ensures (x as int) as bv8 == x
  {
  }

  /** Or-ing in 0x80 sets that bit. */
  lemma OrSetsHighBit(a: byte)
    ensures HasBits(Or(a, 0x80), 0x80)
  {
    var y := (a as bv8) | 0x80;
    BitsRoundTrip(y);
    assert Or(a, 0x80) == y as int;
    assert (Or(a, 0x80) as bv8) == y;
    assert y & 0x80 == 0x80;
  }

  /** Or-ing in 0x80 and then 0x83 is or-ing in 0x83. */
  lemma OrHighThenLowBits(a: byte)
    ensures Or(Or(a, 0x80), 0x83) == Or(a, 0x83)
  {
    var x := a as bv8;
    var y := x | 0x80;
    BitsRoundTrip(y);
    assert Or(a, 0x80) == y as int;
    assert Or(a, 0x80) as bv8 == y;
    assert y | 0x83 == x | 0x83;
  }

  /** Or-ing in 0x83 sets the 0x80 bit and the low two bits. */
  lemma OrSetsLowBits(a: byte)
    ensures HasBits(Or(a, 0x83), 0x83)
  {
    var y := (a as bv8) | 0x83;
    BitsRoundTrip(y);
    assert Or(a, 0x83) == y as int;
    assert Or(a, 0x83) as bv8 == y;
    assert y & 0x83 == 0x83;
  }

  /** A freshly allocated `new byte[n]`. */
  function Zeros(n: nat): (z: seq<byte>)
    ensures |z| == n
    ensures forall i :: 0 <= i < n ==> z[i] == 0
  {
    seq(n, _ => 0)
  }

  /** `Array.Resize(ref a, n)`: keeps the first `min(|a|, n)` bytes and pads with zeros. */
  function Resize(a: seq<byte>, n: nat): (r: seq<byte>)
    ensures |r| == n
    ensures forall i :: 0 <= i < n && i < |a| ==> r[i] == a[i]
    ensures forall i :: |a| <= i < n ==> r[i] == 0
  {
    if n <= |a| then a[..n] else a + Zeros(n - |a|)
  }

  /** Dropping the first part of a concatenation leaves the second. */
  lemma DropPrefix(a: seq<byte>, b: seq<byte>)
    ensures (a + b)[|a|..] == b
  {
  }

  /** Concatenation is associative. */
  lemma ConcatAssoc(a: seq<byte>, b: seq<byte>, c: seq<byte>)
    ensures a + (b + c) == (a + b) + c
  {
  }

}

=== FILE: dns_server.dfy ===
/** One received datagram, end to end: extract the queried name, derive
    its base name, look it up and build the reply; `None` means nothing is
    sent back. */
module DnsServer {

  import opened Wrappers
  import opened Bytes
  import opened Text
  import opened Question
  import opened HostTable
  import opened Response

  /** The body of the receive loop for one datagram. A failed name walk
      (the C# exception) and a null reply both send nothing. */
  function HandleQuery(request: seq<byte>, t: Table): (r: Option<seq<byte>>)
    ensures ExtractDomainName(request, QuestionOffset).None? ==> r.None?
    ensures r.Some? ==> EchoesHeader(request, r.value)
    ensures ExtractDomainName(request, QuestionOffset).Some? ==>
              var base := BaseName(ExtractDomainName(request, QuestionOffset).value);
              match Lookup(t, base)
              case Some(ip) => (r.Some? <==> HitFits(request)) && (r.Some? ==> HitLayout(request, r.value, ip))
              case None => r.Some? && MissLayout(request, r.value)
  {
    match ExtractDomainName(request, QuestionOffset)
    case None => None
    case Some(domain) =>
      assert |request| > HeaderSize;
      BuildResponse(request, BaseName(domain), t)
  }

  /** No label of the name holds a zero byte. */
  predicate ZeroFree(labels: seq<Label>)
  {
    forall i :: 0 <= i < |labels| ==> 0 !in labels[i]
  }

  /** Non-zero bytes are skipped by the zero scan. */
  lemma {:induction false} FirstZeroSkips(s: seq<byte>, lo: nat, hi: nat)
    requires lo <= hi <= |s|
    requires forall k :: lo <= k < hi ==> s[k] != 0
    ensures FirstZero(s, lo) == FirstZero(s, hi)
    decreases hi - lo
  {
    if lo < hi {
      FirstZeroSkips(s, lo + 1, hi);
    }
  }

  /** A first label without a zero byte is passed over by the zero scan,
      together with its length byte. */
  lemma ScanSkipsLabel(request: seq<byte>, pos: nat, labels: seq<Label>)
    requires |labels| > 0 && NameAt(request, pos, labels) && 0 !in labels[0]
    ensures FirstZero(request, pos) == FirstZero(request, pos + 1 + |labels[0]|)
    ensures NameAt(request, pos + 1 + |labels[0]|, labels[1..])
    ensures |EncodeName(labels)| == 1 + |labels[0]| + |EncodeName(labels[1..])|
  {
    var len := |labels[0]|;
    NameAtFirst(request, pos, labels);
    forall k | pos <= k < pos + 1 + len
      ensures request[k] != 0
    {
      if k > pos {
        assert request[k] == request[pos + 1..pos + 1 + len][k - pos - 1] == labels[0][k - pos - 1];
      }
    }
    FirstZeroSkips(request, pos, pos + 1 + len);
  }

  /** When no label holds a zero byte, the raw zero scan of the reply
      builder stops exactly at the terminator the label walk reads. */
  lemma {:induction false} ScanFindsTerminator(request: seq<byte>, pos: nat, labels: seq<Label>)
    requires NameAt(request, pos, labels) && ZeroFree(labels)
    ensures FirstZero(request, pos) == Some(pos + |EncodeName(labels)| - 1)
    decreases |labels|
  {
    if |labels| == 0 {
      assert request[pos] == request[pos..pos + 1][0] == 0;
    } else {
      ScanSkipsLabel(request, pos, labels);
      assert ZeroFree(labels[1..]) by {
        forall i | 0 <= i < |labels[1..]| ensures 0 !in labels[1..][i] {
          assert labels[1..][i] == labels[i + 1];
        }
      }
      ScanFindsTerminator(request, pos + 1 + |labels[0]|, labels[1..]);
    }
  }

  /** The two ways of reading the question disagree once a label holds a
      zero byte: here the walk reads the one label [0x61, 0x00], reads its
      terminator at offset 15 and ends at 16, while the reply builder's
      scan stops at offset 14. */
  lemma ScanDisagreesWithWalk()
    ensures var request := Zeros(HeaderSize) + [2, 0x61, 0, 0, 0, 1, 0, 1];
            && ParseLabels(request, QuestionOffset) == Some(([[0x61, 0]], 16))
            && FirstZero(request, HeaderSize) == Some(14)
  {
    var request := Zeros(HeaderSize) + [2, 0x61, 0, 0, 0, 1, 0, 1];
    var l: Label := [0x61, 0];
    assert NameAt(request, QuestionOffset, [l]) by {
      assert EncodeName([l]) == [2, 0x61, 0, 0];
      assert request[12..16] == [2, 0x61, 0, 0];
    }
    ParseLabelsComplete(request, QuestionOffset, [l]);
    assert FirstZero(request, 14) == Some(14);
    FirstZeroSkips(request, HeaderSize, 14);
  }

  /** When some label holds a zero byte, the raw zero scan stops inside
      the name, before the terminator the label walk reads. */
  lemma {:induction false} ScanStopsInsideName(request: seq<byte>, pos: nat, labels: seq<Label>)
    requires NameAt(request, pos, labels) && !ZeroFree(labels)
    ensures FirstZero(request, pos).Some?
    ensures FirstZero(request, pos).value < pos + |EncodeName(labels)| - 1
    decreases |labels|
  {
    var len := |labels[0]|;
    NameAtFirst(request, pos, labels);
    if 0 in labels[0] {
      var j :| 0 <= j < len && labels[0][j] == 0;
      assert request[pos + 1 + j] == request[pos + 1..pos + 1 + len][j] == 0;
    } else {
      ScanSkipsLabel(request, pos, labels);
      assert !ZeroFree(labels[1..]) by {
        var i :| 0 <= i < |labels| && 0 in labels[i];
        assert i > 0 && labels[1..][i - 1] == labels[i];
      }
      ScanStopsInsideName(request, pos + 1 + len, labels[1..]);
    }
  }

  /** The raw zero scan and the label walk end the name at the same byte
      exactly when no label holds a zero byte. */
  lemma ScanMatchesWalkIff(request: seq<byte>, pos: nat, labels: seq<Label>)
    requires NameAt(request, pos, labels)
    ensures FirstZero(request, pos) == Some(pos + |EncodeName(labels)| - 1) <==> ZeroFree(labels)
  {
    if ZeroFree(labels) {
      ScanFindsTerminator(request, pos, labels);
    } else {
      ScanStopsInsideName(request, pos, labels);
    }
  }

  /** A query whose label walk fails gets no reply: a label length byte
      that points past the end of the datagram, for one. */
  lemma TruncatedQueryDropped(request: seq<byte>, t: Table)
    requires |request| > QuestionOffset && request[QuestionOffset] != 0
    requires QuestionOffset + 1 + request[QuestionOffset] > |request|
    ensures HandleQuery(request, t).None?
  {
    TruncatedLabelFails(request, QuestionOffset);
    ParseLabelsFailsIff(request, QuestionOffset);
  }

  /** A query assembled from a header, an encoded name, the type/class
      bytes and anything after: the name sits at offset 12 and, when no
      label holds a zero byte, the zero scan ends on its terminator. */
  lemma AssembledQuery(header: seq<byte>, labels: seq<Label>, qtail: seq<byte>, rest: seq<byte>)
    requires |header| == HeaderSize && |qtail| == 4 && ZeroFree(labels)
    ensures var e := EncodeName(labels);
            var request := header + e + qtail + rest;
            && NameAt(request, QuestionOffset, labels)
            && FirstZero(request, HeaderSize) == Some(HeaderSize + |e| - 1)
            && request[HeaderSize..HeaderSize + |e| + 4] == e + qtail
            && request[..HeaderSize] == header
  {
    var e := EncodeName(labels);
    var request := header + e + qtail + rest;
    assert request[HeaderSize..HeaderSize + |e|] == e;
    ScanFindsTerminator(request, QuestionOffset, labels);
  }

  /** A query whose labels hold no zero byte and whose reply fits the
      512-byte buffer, for a registered base name (the first label's text
      before any '.', up to case), is answered: the
      header echoed with QR and RA set and 1 written into the low byte of
      the answer count (the high byte is the query's), the question
      bytes echoed exactly, then one A record for the registered address. */
  lemma AnsweredQuery(header: seq<byte>, labels: seq<Label>, qtail: seq<byte>, rest: seq<byte>, t: Table, ip: Address)
    requires |header| == HeaderSize && |qtail| == 4
    requires ZeroFree(labels)
    requires Lookup(t, FirstLabelBase(labels)) == Some(ip)
    requires HeaderSize + |EncodeName(labels)| + 4 + 16 <= MaxPacket
    ensures HandleQuery(header + EncodeName(labels) + qtail + rest, t)
            == Some(header[2 := Or(header[2], 0x80)][3 := Or(header[3], 0x80)][7 := 1]
                    + (EncodeName(labels) + qtail + AnswerRecord(ip)))
  {
    var e := EncodeName(labels);
    var request := header + e + qtail + rest;
    AssembledQuery(header, labels, qtail, rest);
    ExtractEncoded(request, QuestionOffset, labels);
    BaseNameOfLabels(labels);
    assert HandleQuery(request, t) == HitReply(request, ip);
    assert ReplyHeader(request) == header[2 := Or(header[2], 0x80)][3 := Or(header[3], 0x80)];
  }

  /** A well-formed query for an unregistered base name gets a name-error
      reply as long as the query, with zeros after the header. */
  lemma NameErrorQuery(request: seq<byte>, labels: seq<Label>, t: Table)
    requires NameAt(request, QuestionOffset, labels)
    requires Lookup(t, FirstLabelBase(labels)).None?
    ensures var r := HandleQuery(request, t);
            r.Some? && EchoesHeader(request, r.value) && MissLayout(request, r.value)
  {
    ExtractEncoded(request, QuestionOffset, labels);
    BaseNameOfLabels(labels);
  }

  /** A query whose base name is blank, such as a query for the root name
      or one whose first label starts with '.', gets the name-error reply
      from a table built by registration. */
  lemma BlankBaseNameError(request: seq<byte>, labels: seq<Label>, t: Table)
    requires KeysNonBlank(t)
    requires NameAt(request, QuestionOffset, labels)
    requires IsNullOrWhiteSpace(Some(FirstLabelBase(labels)))
    ensures HandleQuery(request, t) == Some(MissReply(request))
  {
    ExtractEncoded(request, QuestionOffset, labels);
    BaseNameOfLabels(labels);
    BlankNeverMatches(t, FirstLabelBase(labels));
  }

  /** A query for the root name, whose only byte at offset 12 is the
      terminator, gets the name-error reply from a table built by registration. */
  lemma RootQueryError(header: seq<byte>, rest: seq<byte>, t: Table)
    requires |header| == HeaderSize && KeysNonBlank(t)
    ensures HandleQuery(header + [0] + rest, t) == Some(MissReply(header + [0] + rest))
  {
    var request := header + [0] + rest;
    assert NameAt(request, QuestionOffset, []) by {
      assert request[QuestionOffset..QuestionOffset + 1] == [0] == EncodeName([]);
    }
    BlankBaseNameError(request, [], t);
  }

  /** Registration feeds the query path: once `domain` is registered,
      a query whose labels hold no zero byte, whose reply fits the 512-byte
      buffer and whose base name equals it up to case is answered with the
      registered address. */
  lemma RegisteredNameAnswered(t: Table, domain: string, ip: Address,
                               header: seq<byte>, labels: seq<Label>, qtail: seq<byte>, rest: seq<byte>)
    requires Accepts(Some(domain), Some(ip))
    requires SameKey(FirstLabelBase(labels), domain)
    requires |header| == HeaderSize && |qtail| == 4 && ZeroFree(labels)
    requires HeaderSize + |EncodeName(labels)| + 4 + 16 <= MaxPacket
    ensures HandleQuery(header + EncodeName(labels) + qtail + rest, Register(t, Some(domain), Some(ip)))
            == Some(header[2 := Or(header[2], 0x80)][3 := Or(header[3], 0x80)][7 := 1]
                    + (EncodeName(labels) + qtail + AnswerRecord(ip)))
  {
    AnsweredQuery(header, labels, qtail, rest, Register(t, Some(domain), Some(ip)), ip);
  }

  /** The labels of the worked example: "mysite" and "local". */
  function ExampleLabels(): seq<Label>
  {
    [[0x6D, 0x79, 0x73, 0x69, 0x74, 0x65], [0x6C, 0x6F, 0x63, 0x61, 0x6C]]
  }

  /** The wire form of the worked example's name. */
  lemma ExampleEncoding()
    ensures EncodeName(ExampleLabels()) == [6, 0x6D, 0x79, 0x73, 0x69, 0x74, 0x65, 5, 0x6C, 0x6F, 0x63, 0x61, 0x6C, 0]
    ensures ZeroFree(ExampleLabels())
  {
    var labels := ExampleLabels();
    assert labels[1..] == [labels[1]];
    assert EncodeName([labels[1]]) == [5] + labels[1] + EncodeName([]);
  }

  /** The worked example's name has base name "mysite". */
  lemma ExampleBase()
    ensures FirstLabelBase(ExampleLabels()) == "mysite"
  {
    var labels := ExampleLabels();
    BaseNameOfPlainLabel(labels);
    assert AsciiDecode(labels[0]) == "mysite";
    assert Lower("mysite") == "mysite";
  }

  /** The worked example: "MySite" registered as 203.0.113.7, then a query
      with id 0x1234 for mysite.local, type A, class IN. The reply keeps
      the id, sets QR and RA, has one answer, echoes the question and
      carries the address with TTL 30. */
  lemma MySiteExample()
    ensures var header := [0x12, 0x34, 0x01, 0x00, 0x00, 0x01, 0x00, 0x00, 0x00, 0x00, 0x00, 0x00];
            var qtail := [0x00, 0x01, 0x00, 0x01];
            var ip := [203, 0, 113, 7];
            HandleQuery(header + EncodeName(ExampleLabels()) + qtail, Register(map[], Some("MySite"), Some(ip)))
            == Some([0x12, 0x34, 0x81, 0x80, 0x00, 0x01, 0x00, 0x01, 0x00, 0x00, 0x00, 0x00]
                    + (EncodeName(ExampleLabels()) + qtail + AnswerRecord(ip)))
  {
    var header: seq<byte> := [0x12, 0x34, 0x01, 0x00, 0x00, 0x01, 0x00, 0x00, 0x00, 0x00, 0x00, 0x00];
    var qtail: seq<byte> := [0x00, 0x01, 0x00, 0x01];
    var ip: Address := [203, 0, 113, 7];
    var t := Register(map[], Some("MySite"), Some(ip));
    var labels := ExampleLabels();
    ExampleEncoding();
    ExampleBase();
    ExampleLookup(ip);
    AnsweredQuery(header, labels, qtail, [], t, ip);
    assert header + EncodeName(labels) + qtail + [] == header + EncodeName(labels) + qtail;
    MySiteHeaderBytes();
  }

  /** In the worked example's table, "mysite" finds the address registered as "MySite". */
  lemma ExampleLookup(ip: Address)
    ensures Lookup(Register(map[], Some("MySite"), Some(ip)), "mysite") == Some(ip)
  {
    assert Lower("MySite") == "mysite";
    assert Accepts(Some("MySite"), Some(ip)) by {
      assert !IsWhiteSpace(Lower("MySite")[0]);
    }
  }

  /** The header of the worked example's reply, byte by byte. */
  lemma MySiteHeaderBytes()
    ensures var header: seq<byte> := [0x12, 0x34, 0x01, 0x00, 0x00, 0x01, 0x00, 0x00, 0x00, 0x00, 0x00, 0x00];
            header[2 := Or(header[2], 0x80)][3 := Or(header[3], 0x80)][7 := 1]
            == [0x12, 0x34, 0x81, 0x80, 0x00, 0x01, 0x00, 0x01, 0x00, 0x00, 0x00, 0x00]
  {
    OrFlagExample();
  }

  /** The answer record of the worked example, byte by byte. */
  lemma MySiteAnswerBytes()
    ensures AnswerRecord([203, 0, 113, 7])
            == [0xC0, 0x0C, 0x00, 0x01, 0x00, 0x01, 0x00, 0x00, 0x00, 0x1E, 0x00, 0x04, 203, 0, 113, 7]
  {
  }

  /** The flag bytes of the worked example. */
  lemma OrFlagExample()
    ensures Or(0x01, 0x80) == 0x81 && Or(0x00, 0x80) == 0x80
  {
  }

}

=== FILE: host_table.dfy ===
/** The responder's name table: a dictionary from names to IPv4 addresses
    whose keys compare case-insensitively. Registration is an upsert. */
module HostTable {

  import opened Wrappers
  import opened Bytes
  import opened Text

  /** An IPv4 address as its four network-order bytes. */
  type Address = a: seq<byte> | |a| == 4 witness [0, 0, 0, 0]

  /** The dictionary, each key stored in its lower-cased form: one entry
      per class of case-insensitively equal names. */
  type Table = t: map<string, Address> | forall k :: k in t ==> Lower(k) == k witness map[]

  /** Two names the table's comparer treats as the same key. */
  predicate SameKey(a: string, b: string)
  {
    Lower(a) == Lower(b)
  }

  /** `TryGetValue`: the address of the entry whose key equals `name`
      up to case, if there is one. */
  function Lookup(t: Table, name: string): (r: Option<Address>)
    ensures r.Some? <==> exists k :: k in t && SameKey(k, name)
    ensures forall k :: k in t && SameKey(k, name) ==> r == Some(t[k])
  {
    if Lower(name) in t then
      LowerIdempotent(name);
      Some(t[Lower(name)])
    else None
  }

  /** The registration guard: a name that is not null or blank after
      lower-casing, and a detected address. */
  predicate Accepts(domain: Option<string>, ip: Option<Address>)
  {
    domain.Some? && !IsNullOrWhiteSpace(Some(Lower(domain.value))) && ip.Some?
  }

  /** The guard accepts exactly a present name holding at least one
      character that is not white space, with a present address. */
  lemma AcceptsNonBlank(domain: Option<string>, ip: Option<Address>)
    ensures Accepts(domain, ip) <==>
              domain.Some? && ip.Some? && exists i :: 0 <= i < |domain.value| && !IsWhiteSpace(domain.value[i])
  {
    if domain.Some? {
      LowerKeepsWhiteSpace(domain.value);
    }
  }

  /** A registration: the name is lower-cased, and when the guard holds
      the entry for that name is written (added or overwritten). */
  function Register(t: Table, domain: Option<string>, ip: Option<Address>): (t': Table)
    ensures !Accepts(domain, ip) ==> t' == t
    ensures Accepts(domain, ip) ==>
              forall name :: Lookup(t', name) == if SameKey(name, domain.value) then ip else Lookup(t, name)
  {
    if Accepts(domain, ip) then
      var key := Lower(domain.value);
      LowerIdempotent(domain.value);
      t[key := ip.value]
    else t
  }

  /** Every key is a name the registration guard accepts: none is blank. */
  predicate KeysNonBlank(t: Table)
  {
    forall k :: k in t ==> !IsNullOrWhiteSpace(Some(k))
  }

  /** Registration keeps every key non-blank: a blank name is never stored. */
  lemma RegisterKeepsKeysNonBlank(t: Table, domain: Option<string>, ip: Option<Address>)
    requires KeysNonBlank(t)
    ensures KeysNonBlank(Register(t, domain, ip))
  {
  }

  /** In a table built by registration, a blank name (empty included)
      matches no entry. */
  lemma BlankNeverMatches(t: Table, name: string)
    requires KeysNonBlank(t) && IsNullOrWhiteSpace(Some(name))
    ensures Lookup(t, name).None?
  {
    if Lower(name) in t {
      LowerKeepsWhiteSpace(name);
    }
  }

  /** Registering the same pair twice is registering it once. */
  lemma RegisterIdempotent(t: Table, domain: Option<string>, ip: Option<Address>)
    ensures Register(Register(t, domain, ip), domain, ip) == Register(t, domain, ip)
  {
  }

  /** Last write wins: a second registration under a case-insensitively
      equal name replaces the first one entirely. */
  lemma RegisterLastWriteWins(t: Table, d1: string, d2: string, a: Address, b: Address)
    requires SameKey(d1, d2)
    requires Accepts(Some(d2), Some(b))
    ensures Register(Register(t, Some(d1), Some(a)), Some(d2), Some(b)) == Register(t, Some(d2), Some(b))
  {
    LowerKeepsWhiteSpace(d1);
    LowerKeepsWhiteSpace(d2);
    LowerIdempotent(d1);
  }

  /** Registrations under case-insensitively different names commute. */
  lemma RegisterCommutes(t: Table, d1: string, d2: string, a: Address, b: Address)
    requires !SameKey(d1, d2)
    ensures Register(Register(t, Some(d1), Some(a)), Some(d2), Some(b))
            == Register(Register(t, Some(d2), Some(b)), Some(d1), Some(a))
  {
    if Accepts(Some(d1), Some(a)) && Accepts(Some(d2), Some(b)) {
      UpdatesCommute(t, Lower(d1), Lower(d2), a, b);
    }
  }

  /** Writes to different keys of a map commute. */
  lemma UpdatesCommute(m: map<string, Address>, k1: string, k2: string, a: Address, b: Address)
    requires k1 != k2
    ensures m[k1 := a][k2 := b] == m[k2 := b][k1 := a]
  {
  }

  /** A run of registrations, applied in order. */
  function RegisterAll(t: Table, regs: seq<(string, Address)>): Table
    decreases |regs|
  {
    if |regs| == 0 then t
    else RegisterAll(Register(t, Some(regs[0].0), Some(regs[0].1)), regs[1..])
  }

  /** After registering distinct, non-blank names, each name looks up its own address. */
  lemma {:induction false} RegisterAllDistinct(t: Table, regs: seq<(string, Address)>, i: nat)
    requires forall j :: 0 <= j < |regs| ==> Accepts(Some(regs[j].0), Some(regs[j].1))
    requires forall j, k :: 0 <= j < k < |regs| ==> !SameKey(regs[j].0, regs[k].0)
    requires i < |regs|
    ensures Lookup(RegisterAll(t, regs), regs[i].0) == Some(regs[i].1)
    decreases |regs|
  {
    var t1 := Register(t, Some(regs[0].0), Some(regs[0].1));
    if i == 0 {
      LookupUntouched(t1, regs[1..], regs[0].0);
    } else {
      RegisterAllDistinct(t1, regs[1..], i - 1);
    }
  }

  /** Registrations under names other than `name` do not change its lookup. */
  lemma {:induction false} LookupUntouched(t: Table, regs: seq<(string, Address)>, name: string)
    requires forall j :: 0 <= j < |regs| ==> !SameKey(regs[j].0, name)
    ensures Lookup(RegisterAll(t, regs), name) == Lookup(t, name)
    decreases |regs|
  {
    if |regs| > 0 {
      LookupUntouched(Register(t, Some(regs[0].0), Some(regs[0].1)), regs[1..], name);
    }
  }

}

=== FILE: question.dfy ===
/** The question name of a query (section 4.1.2 of RFC 1035): starting at
    offset 12, a run of labels, each a length byte followed by that many
    bytes, ended by a zero length byte (section 3.1 of RFC 1035). */
module Question {

  import opened Wrappers
  import opened Bytes
  import opened Text

  /** The question section starts right after the 12-byte header. */
  const QuestionOffset: nat := 12

  /** A label as the walk reads it: one length byte gives 1..255 bytes.
      The 63-byte bound of RFC 1035 is not enforced by the responder. */
  type Label = l: seq<byte> | 1 <= |l| <= 255 witness [0x61]

  /** The wire form of a label sequence, terminator included; the reference
      against which the walk is proved. */
  function EncodeName(labels: seq<Label>): (e: seq<byte>)
    ensures |e| >= 1 && e[|e| - 1] == 0
    decreases |labels|
  {
    if |labels| == 0 then [0]
    else [|labels[0]|] + labels[0] + EncodeName(labels[1..])
  }

  /** `labels` is encoded in `request` starting at `pos`. */
  predicate NameAt(request: seq<byte>, pos: nat, labels: seq<Label>)
  {
    var e := EncodeName(labels);
    pos + |e| <= |request| && request[pos..pos + |e|] == e
  }

  /** The loop of `ExtractDomainName`: reading a length byte past the end,
      or a label that runs past the end, fails (the C# code throws). On
      success, also yields the offset just past the zero terminator. */
  function ParseLabels(request: seq<byte>, pos: nat): (r: Option<(seq<Label>, nat)>)
    ensures r.Some? ==> pos < r.value.1 <= |request| && request[r.value.1 - 1] == 0
    ensures r.Some? ==> |r.value.0| < r.value.1 - pos
    decreases |request| - pos
  {
    if pos >= |request| then None
    else if request[pos] == 0 then Some(([], pos + 1))
    else
      var len := request[pos] as int;
      if pos + 1 + len > |request| then None
      else
        var first := request[pos + 1..pos + 1 + len];
        match ParseLabels(request, pos + 1 + len)
        case None => None
        case Some((labels, end)) =>
          Some(([first] + labels, end))
  }

  /** What the walk reads is an encoded name, and it stops just past its terminator. */
  lemma {:induction false} ParseLabelsSound(request: seq<byte>, pos: nat)
    requires ParseLabels(request, pos).Some?
    ensures NameAt(request, pos, ParseLabels(request, pos).value.0)
    ensures ParseLabels(request, pos).value.1 == pos + |EncodeName(ParseLabels(request, pos).value.0)|
    decreases |request| - pos
  {
    if request[pos] == 0 {
      assert request[pos..pos + 1] == [0];
    } else {
      var next := pos + 1 + request[pos];
      ParseLabelsSound(request, next);
      var (labels, end) := ParseLabels(request, next).value;
      var first := request[pos + 1..next];
      assert ParseLabels(request, pos).value == ([first] + labels, end);
      NameAtCons(request, pos, first, labels);
    }
  }

  /** A length byte, that many label bytes, then an encoded name, make an
      encoded name one label longer. */
  lemma NameAtCons(request: seq<byte>, pos: nat, first: Label, rest: seq<Label>)
    requires pos + 1 + |first| <= |request| && request[pos] == |first|
    requires request[pos + 1..pos + 1 + |first|] == first
    requires NameAt(request, pos + 1 + |first|, rest)
    ensures NameAt(request, pos, [first] + rest)
    ensures |EncodeName([first] + rest)| == 1 + |first| + |EncodeName(rest)|
  {
    var all := [first] + rest;
    assert all[1..] == rest;
    var e := EncodeName(rest);
    var next := pos + 1 + |first|;
    assert EncodeName(all) == [|first|] + first + e;
    assert request[pos..next + |e|] == [request[pos]] + request[pos + 1..next] + request[next..next + |e|];
  }

  /** An encoded non-empty name is its first label's length byte, that
      label, then the encoding of the remaining labels. */
  lemma NameAtFirst(request: seq<byte>, pos: nat, labels: seq<Label>)
    requires |labels| > 0 && NameAt(request, pos, labels)
    ensures pos + 1 + |labels[0]| <= |request|
    ensures request[pos] == |labels[0]|
    ensures request[pos + 1..pos + 1 + |labels[0]|] == labels[0]
    ensures NameAt(request, pos + 1 + |labels[0]|, labels[1..])
  {
    var len := |labels[0]|;
    var e, e' := EncodeName(labels), EncodeName(labels[1..]);
    var w := request[pos..pos + |e|];
    assert e == [len] + labels[0] + e';
    assert |w| == |e| == 1 + len + |e'|;
    assert w[1..1 + len] == labels[0];
    assert w[1 + len..] == e';
    assert request[pos] == w[0];
    forall k | 0 <= k < len
      ensures request[pos + 1 + k] == labels[0][k]
    {
      assert w[1 + k] == request[pos + 1 + k];
      assert w[1..1 + len][k] == w[1 + k];
    }
    assert request[pos + 1..pos + 1 + len] == labels[0];
    forall k | 0 <= k < |e'|
      ensures request[pos + 1 + len + k] == e'[k]
    {
      assert w[1 + len + k] == request[pos + 1 + len + k];
      assert w[1 + len..][k] == w[1 + len + k];
    }
    assert request[pos + 1 + len..pos + 1 + len + |e'|] == e';
  }

  /** One step of the walk over an encoded name: its first length byte and
      label, then whatever the rest of the walk reads. */
  lemma ParseLabelsStep(request: seq<byte>, pos: nat, labels: seq<Label>, end: nat)
    requires |labels| > 0 && NameAt(request, pos, labels)
    requires ParseLabels(request, pos + 1 + |labels[0]|) == Some((labels[1..], end))
    ensures ParseLabels(request, pos) == Some((labels, end))
  {
    NameAtFirst(request, pos, labels);
    assert [labels[0]] + labels[1..] == labels;
  }

  /** Any encoded name present at `pos` is what the walk reads. */
  lemma {:induction false} ParseLabelsComplete(request: seq<byte>, pos: nat, labels: seq<Label>)
    requires NameAt(request, pos, labels)
    ensures ParseLabels(request, pos) == Some((labels, pos + |EncodeName(labels)|))
    decreases |labels|
  {
    if |labels| == 0 {
      assert request[pos] == request[pos..pos + 1][0] == 0;
    } else {
      var next := pos + 1 + |labels[0]|;
      NameAtFirst(request, pos, labels);
      ParseLabelsComplete(request, next, labels[1..]);
      ParseLabelsStep(request, pos, labels, next + |EncodeName(labels[1..])|);
    }
  }

  /** The walk fails exactly when no encoded name is present at `pos`. */
  lemma ParseLabelsFailsIff(request: seq<byte>, pos: nat)
    ensures ParseLabels(request, pos).None? <==> forall labels :: !NameAt(request, pos, labels)
  {
    if ParseLabels(request, pos).Some? {
      ParseLabelsSound(request, pos);
    } else {
      forall labels | NameAt(request, pos, labels)
        ensures false
      {
        ParseLabelsComplete(request, pos, labels);
      }
    }
  }

  /** A label length byte pointing past the buffer end drops the query. */
  lemma TruncatedLabelFails(request: seq<byte>, pos: nat)
    requires pos < |request| && request[pos] != 0
    requires pos + 1 + request[pos] as int > |request|
    ensures ParseLabels(request, pos).None?
  {
  }

  /** A run of non-zero length bytes that never reaches a terminator
      within the buffer drops the query. */
  lemma {:induction false} UnterminatedFails(request: seq<byte>, pos: nat)
    requires forall k :: pos <= k < |request| ==> request[k] != 0
    ensures ParseLabels(request, pos).None?
    decreases |request| - pos
  {
    if pos < |request| {
      var len := request[pos] as int;
      if pos + 1 + len <= |request| {
        UnterminatedFails(request, pos + 1 + len);
      }
    }
  }

  /** The labels as .NET strings. */
  function DecodeLabels(labels: seq<Label>): (texts: seq<string>)
    ensures |texts| == |labels|
    ensures forall i :: 0 <= i < |labels| ==> texts[i] == AsciiDecode(labels[i])
    ensures forall i :: 0 <= i < |labels| ==> ('.' in texts[i] <==> 0x2E in labels[i])
  {
    seq(|labels|, i requires 0 <= i < |labels| => AsciiDecode(labels[i]))
  }

  /** `ExtractDomainName(request, offset)`: the labels found at `offset`,
      ASCII-decoded and joined by '.'; `None` when the walk fails. */
  function ExtractDomainName(request: seq<byte>, offset: nat): (r: Option<string>)
    ensures r.Some? ==> exists labels :: NameAt(request, offset, labels)
                                         && r.value == Join(DecodeLabels(labels), '.')
    ensures r.None? <==> forall labels :: !NameAt(request, offset, labels)
  {
    ParseLabelsFailsIff(request, offset);
    match ParseLabels(request, offset)
    case None => None
    case Some((labels, _)) =>
      ParseLabelsSound(request, offset);
      Some(Join(DecodeLabels(labels), '.'))
  }

  /** The name text of an encoded name in the request is exactly its labels joined. */
  lemma ExtractEncoded(request: seq<byte>, offset: nat, labels: seq<Label>)
    requires NameAt(request, offset, labels)
    ensures ExtractDomainName(request, offset) == Some(Join(DecodeLabels(labels), '.'))
  {
    ParseLabelsComplete(request, offset, labels);
  }

  /** `domain.Split('.')[0].ToLower()`: the table key a query is looked up by. */
  function BaseName(domain: string): (b: string)
    ensures |b| <= |domain| && '.' !in b
    ensures b == Lower(domain[..|b|])
    ensures |b| < |domain| ==> domain[|b|] == '.'
  {
    SplitFirst(domain, '.');
    var first := Split(domain, '.')[0];
    assert first == domain[..|first|];
    Lower(first)
  }

  /** The key a label sequence is looked up by, read off its first label alone. */
  function FirstLabelBase(labels: seq<Label>): string
  {
    if |labels| == 0 then "" else BaseName(AsciiDecode(labels[0]))
  }

  /** The base name of a queried name depends on its first label only:
      the part of it before any '.' byte, lower-cased; no labels give "". */
  lemma BaseNameOfLabels(labels: seq<Label>)
    ensures BaseName(Join(DecodeLabels(labels), '.')) == FirstLabelBase(labels)
  {
    if |labels| > 0 {
      SplitJoinFirst(DecodeLabels(labels), '.');
    }
  }

  /** Where the first label has no '.' byte, the base name is that label, lower-cased. */
  lemma BaseNameOfPlainLabel(labels: seq<Label>)
    requires |labels| >= 1 && 0x2E !in labels[0]
    ensures BaseName(Join(DecodeLabels(labels), '.')) == Lower(AsciiDecode(labels[0]))
  {
    BaseNameOfLabels(labels);
    SplitNoSeparator(AsciiDecode(labels[0]), '.');
  }

}

=== FILE: response.dfy ===
/** Building the reply datagram from the request bytes and the table. */
module Response {

  import opened Wrappers
  import opened Bytes
  import opened Text
  import opened HostTable

  /** The fixed DNS header (section 4.1.1 of RFC 1035). */
  const HeaderSize: nat := 12
  /** The reply buffer the responder allocates: the classic UDP DNS limit. */
  const MaxPacket: nat := 512
  /** Seconds an answer may be cached. */
  const TtlSeconds: nat := 30

  /** The offset of the first zero byte at or after `from`, if any. */
  function FirstZero(s: seq<byte>, from: nat): (r: Option<nat>)
    ensures r.Some? ==> from <= r.value < |s| && s[r.value] == 0
    ensures r.Some? ==> forall k :: from <= k < r.value ==> s[k] != 0
    ensures r.None? ==> forall k :: from <= k < |s| ==> s[k] != 0
    decreases |s| - from
  {
    if from >= |s| then None
    else if s[from] == 0 then Some(from)
    else FirstZero(s, from + 1)
  }

  /** The one answer record (section 4.1.3 of RFC 1035): a compression
      pointer to offset 12 (section 4.1.4), TYPE A, CLASS IN, the TTL,
      RDLENGTH 4 and the address. */
  function AnswerRecord(ip: Address): (rr: seq<byte>)
    ensures |rr| == 16
    ensures rr[0] == 0xC0 && rr[1] == HeaderSize
    ensures rr[2] as int * 0x100 + rr[3] as int == 1 && rr[4] as int * 0x100 + rr[5] as int == 1
    ensures rr[6] as int * 0x100_0000 + rr[7] as int * 0x1_0000 + rr[8] as int * 0x100 + rr[9] as int == TtlSeconds
    ensures rr[10] as int * 0x100 + rr[11] as int == |ip| && rr[12..] == ip
  {
    [0xC0, 0x0C]                  // NAME: pointer to the question name
    + [0x00, 0x01]                // TYPE: A
    + [0x00, 0x01]                // CLASS: IN
    + [0, 0, 0, TtlSeconds]       // TTL, big-endian
    + [0x00, 0x04]                // RDLENGTH
    + ip                          // RDATA
  }

  /** The request header with the response bits or-ed in: 0x80 in byte 2
      (QR) and 0x80 in byte 3 (RA). AA is never set by the responder; the
      query's own byte-2 bits, AA included, are copied. */
  function ReplyHeader(request: seq<byte>): (h: seq<byte>)
    requires |request| >= HeaderSize
    ensures |h| == HeaderSize
    ensures h[2] == Or(request[2], 0x80) && h[3] == Or(request[3], 0x80)
    ensures forall k :: 0 <= k < HeaderSize && k != 2 && k != 3 ==> h[k] == request[k]
  {
    var h := request[..HeaderSize];
    h[2 := Or(h[2], 0x80)][3 := Or(h[3], 0x80)]
  }

  /** The header bytes every reply shares with its request. */
  predicate EchoesHeader(request: seq<byte>, reply: seq<byte>)
  {
    && |request| >= HeaderSize && |reply| >= HeaderSize
    && reply[0..2] == request[0..2]
    && reply[2] == Or(request[2], 0x80)
    && HasBits(reply[3], 0x80)
    && reply[4..6] == request[4..6]
    && reply[8..12] == request[8..12]
  }

  /** The reply fits the 512-byte buffer on a hit. */
  predicate HitFits(request: seq<byte>)
  {
    var z := FirstZero(request, HeaderSize);
    z.Some? && z.value + 5 <= |request| && z.value + 21 <= MaxPacket
  }

  /** Layout of a positive reply: 1 in the low byte of the answer count
      with the high byte copied from the query, the request bytes from
      offset 12 through the first zero byte and the four bytes after it,
      then the answer record. */
  predicate HitLayout(request: seq<byte>, reply: seq<byte>, ip: Address)
  {
    var z := FirstZero(request, HeaderSize);
    && z.Some?
    && |reply| == z.value + 21
    && |request| >= z.value + 5
    && reply[3] == Or(request[3], 0x80)
    && reply[6] == request[6] && reply[7] == 1
    && reply[HeaderSize..z.value + 5] == request[HeaderSize..z.value + 5]
    && reply[z.value + 5..z.value + 17] == [0xC0, 0x0C, 0x00, 0x01, 0x00, 0x01, 0x00, 0x00, 0x00, 0x1E, 0x00, 0x04]
    && reply[z.value + 17..] == ip
  }

  /** Layout of a name-error reply: as long as the request, 0x83 (RA and
      the low RCODE bits) or-ed into byte 3, answer count as in the request, and zeros
      after the header. */
  predicate MissLayout(request: seq<byte>, reply: seq<byte>)
  {
    && |request| >= HeaderSize
    && |reply| == |request|
    && reply[3] == Or(request[3], 0x83)
    && reply[6] == request[6] && reply[7] == request[7]
    && forall k :: HeaderSize <= k < |reply| ==> reply[k] == 0
  }

  /** The positive reply: `None` when the first zero byte after the
      header, the four bytes after it or the answer record do not fit the
      request or the 512-byte buffer. */
  function HitReply(request: seq<byte>, ip: Address): (r: Option<seq<byte>>)
    requires |request| >= HeaderSize
    ensures r.Some? <==> HitFits(request)
    ensures r.Some? ==> EchoesHeader(request, r.value) && HitLayout(request, r.value, ip)
  {
    if !HitFits(request) then None
    else
      var z := FirstZero(request, HeaderSize).value;
      var reply := ReplyHeader(request)[7 := 1] + (request[HeaderSize..z + 5] + AnswerRecord(ip));
      HitShape(request, ip, reply);
      Some(reply)
  }

  /** The positive reply assembled from its three parts has the promised layout. */
  lemma HitShape(request: seq<byte>, ip: Address, reply: seq<byte>)
    requires |request| >= HeaderSize && HitFits(request)
    requires var z := FirstZero(request, HeaderSize).value;
             reply == ReplyHeader(request)[7 := 1] + (request[HeaderSize..z + 5] + AnswerRecord(ip))
    ensures EchoesHeader(request, reply) && HitLayout(request, reply, ip)
  {
    var z := FirstZero(request, HeaderSize).value;
    var h, tail := ReplyHeader(request)[7 := 1], request[HeaderSize..z + 5] + AnswerRecord(ip);
    HitShapeHeader(request, reply, h, tail);
    DropPrefix(h, tail);
    HitShapeBody(request[HeaderSize..z + 5], ip, reply, z);
  }

  /** The header part of a positive reply. */
  lemma HitShapeHeader(request: seq<byte>, reply: seq<byte>, h: seq<byte>, tail: seq<byte>)
    requires |request| >= HeaderSize && h == ReplyHeader(request)[7 := 1] && reply == h + tail
    ensures EchoesHeader(request, reply)
    ensures reply[3] == Or(request[3], 0x80) && reply[6] == request[6] && reply[7] == 1
  {
    OrSetsHighBit(request[3]);
    assert reply[..HeaderSize] == h;
  }

  /** The part of a positive reply after its header. */
  lemma HitShapeBody(echo: seq<byte>, ip: Address, reply: seq<byte>, z: nat)
    requires |echo| == z + 5 - HeaderSize && |reply| >= HeaderSize
    requires reply[HeaderSize..] == echo + AnswerRecord(ip)
    ensures |reply| == z + 21
    ensures reply[HeaderSize..z + 5] == echo
    ensures reply[z + 5..z + 17] == [0xC0, 0x0C, 0x00, 0x01, 0x00, 0x01, 0x00, 0x00, 0x00, 0x1E, 0x00, 0x04]
    ensures reply[z + 17..] == ip
  {
    var tail := echo + AnswerRecord(ip);
    assert reply[HeaderSize..z + 5] == tail[..z + 5 - HeaderSize];
    assert reply[z + 5..z + 17] == tail[z + 5 - HeaderSize..z + 17 - HeaderSize];
    assert reply[z + 17..] == tail[z + 17 - HeaderSize..];
  }

  /** Past the header, a positive reply is the request's bytes through the
      four after the first zero byte, then the answer record. */
  lemma HitReplyEchoesQuestion(request: seq<byte>, ip: Address)
    requires |request| >= HeaderSize && HitFits(request)
    ensures var z := FirstZero(request, HeaderSize).value;
            HitReply(request, ip).value[HeaderSize..] == request[HeaderSize..z + 5] + AnswerRecord(ip)
  {
    var z := FirstZero(request, HeaderSize).value;
    var h := ReplyHeader(request)[7 := 1];
    var tail := request[HeaderSize..z + 5] + AnswerRecord(ip);
    assert HitReply(request, ip) == Some(h + tail);
    DropPrefix(h, tail);
  }

  /** The name-error reply. */
  function MissReply(request: seq<byte>): (reply: seq<byte>)
    requires |request| >= HeaderSize
    ensures EchoesHeader(request, reply) && MissLayout(request, reply)
  {
    OrSetsHighBit(request[3]);
    OrHighThenLowBits(request[3]);
    OrSetsLowBits(request[3]);
    var header := ReplyHeader(request);
    header[3 := Or(header[3], 0x83)] + Zeros(|request| - HeaderSize)
  }

  /** `BuildResponse`: `None` stands for the null the C# code returns when
      an index falls outside the request or the 512-byte buffer. */
  function BuildResponse(request: seq<byte>, baseDomain: string, t: Table): (r: Option<seq<byte>>)
    ensures |request| < HeaderSize ==> r.None?
    ensures r.Some? ==> EchoesHeader(request, r.value)
    ensures Lookup(t, baseDomain).Some? ==> (r.Some? <==> HitFits(request))
    ensures Lookup(t, baseDomain).Some? && r.Some? ==> HitLayout(request, r.value, Lookup(t, baseDomain).value)
    ensures Lookup(t, baseDomain).None? && |request| >= HeaderSize ==> r.Some? && MissLayout(request, r.value)
  {
    if |request| < HeaderSize then None
    else
      match Lookup(t, baseDomain)
      case Some(ip) => HitReply(request, ip)
      case None => Some(MissReply(request))
  }

  /** Lines 301-312 of the C# method: copy the request bytes from offset 12
      up to the first zero byte, write the zero, then copy four bytes. */
  method CopyQuestion(request: seq<byte>, buffer: seq<byte>) returns (r: Option<seq<byte>>)
    requires |request| >= HeaderSize && |buffer| == MaxPacket
    requires buffer[HeaderSize..] == Zeros(MaxPacket - HeaderSize)
    ensures var z := FirstZero(request, HeaderSize);
            r.Some? <==> z.Some? && z.value + 5 <= |request| && z.value + 5 <= MaxPacket
    ensures r.Some? ==> var z := FirstZero(request, HeaderSize).value;
            r.value == buffer[..HeaderSize] + request[HeaderSize..z + 5] + Zeros(MaxPacket - z - 5)
  {
    var response := buffer;
    var position := HeaderSize;
    assert response == buffer[..HeaderSize] + request[HeaderSize..position] + Zeros(MaxPacket - position);
    while position < |request| && request[position] != 0
      invariant HeaderSize <= position <= |request| && position <= MaxPacket
      invariant forall k :: HeaderSize <= k < position ==> request[k] != 0
      invariant response == buffer[..HeaderSize] + request[HeaderSize..position] + Zeros(MaxPacket - position)
      decreases |request| - position
    {
      if position >= MaxPacket {
        // response[512] is out of range
        return None;
      }
      response := response[position := request[position]];
      position := position + 1;
    }
    if position >= |request| || position >= MaxPacket {
      // request[position] or response[position] is out of range
      return None;
    }
    var z := position;
    assert FirstZero(request, HeaderSize) == Some(z);
    response := response[position := 0];
    position := position + 1;
    if position + 4 > |request| || position + 4 > MaxPacket {
      // Array.Copy of the type and class runs past either array
      return None;
    }
    response := response[..position] + request[position..position + 4] + response[position + 4..];
    r := Some(response);
  }

  /** Lines 314-335 of the C# method: the answer bytes written one by one
      from `position`, then the buffer cut to the bytes written. */
  method WriteAnswer(buffer: seq<byte>, position: nat, answer: seq<byte>) returns (r: Option<seq<byte>>)
    requires |buffer| == MaxPacket && position <= MaxPacket
    ensures r.Some? <==> position + |answer| <= MaxPacket
    ensures r.Some? ==> r.value == buffer[..position] + answer
  {
    var response := buffer;
    var p := position;
    var i := 0;
    while i < |answer|
      invariant 0 <= i <= |answer| && p == position + i <= MaxPacket
      invariant |response| == MaxPacket
      invariant response[..p] == buffer[..position] + answer[..i]
    {
      if p >= MaxPacket {
        // response[512] is out of range
        return None;
      }
      response := response[p := answer[i]];
      p := p + 1;
      i := i + 1;
    }
    assert answer[..i] == answer;
    r := Some(response[..p]);
  }

  /** The C# method step by step: a zeroed 512-byte buffer, the header
      copy and flag bits, then either the question copy and the answer
      record, or 0x83 or-ed into byte 3 and the resize to the request length. Each index
      the C# code would find out of range ends in `None`. It computes
      exactly `BuildResponse`. */
  method BuildResponseInPlace(request: seq<byte>, baseDomain: string, t: Table) returns (r: Option<seq<byte>>)
    ensures r == BuildResponse(request, baseDomain, t)
  {
    if |request| < HeaderSize {
      // Array.Copy of the header runs past the request
      return None;
    }
    var response := HeaderInPlace(request);
    var found := Lookup(t, baseDomain);
    if found.Some? {
      response := response[7 := 1];
      r := HitInPlace(request, response, found.value);
    } else {
      response := response[3 := Or(response[3], 0x83)];
      r := Some(Resize(response, |request|));
      assert r.value == MissReply(request);
    }
  }

  /** Lines 291-295 of the C# method: a zeroed 512-byte buffer, the
      request header copied into it, QR and RA or-ed in. */
  method HeaderInPlace(request: seq<byte>) returns (response: seq<byte>)
    requires |request| >= HeaderSize
    ensures response == ReplyHeader(request) + Zeros(MaxPacket - HeaderSize)
  {
    response := Zeros(MaxPacket);
    response := request[..HeaderSize] + response[HeaderSize..];
    response := response[2 := Or(response[2], 0x80)];
    response := response[3 := Or(response[3], 0x80)];
  }

  /** Lines 299-336 of the C# method, from the buffer with the header and
      answer count already written. */
  method HitInPlace(request: seq<byte>, buffer: seq<byte>, ip: Address) returns (r: Option<seq<byte>>)
    requires |request| >= HeaderSize
    requires buffer == ReplyHeader(request)[7 := 1] + Zeros(MaxPacket - HeaderSize)
    ensures r == HitReply(request, ip)
  {
    assert buffer[HeaderSize..] == Zeros(MaxPacket - HeaderSize);
    var copied := CopyQuestion(request, buffer);
    if copied.None? {
      return None;
    }
    var z := FirstZero(request, HeaderSize).value;
    var h := ReplyHeader(request)[7 := 1];
    assert buffer[..HeaderSize] == h;
    assert copied.value[..z + 5] == h + request[HeaderSize..z + 5];
    r := WriteAnswer(copied.value, z + 5, AnswerRecord(ip));
    ConcatAssoc(h, request[HeaderSize..z + 5], AnswerRecord(ip));
  }

}

=== FILE: text.dfy ===
/** The few pieces of .NET string handling the responder relies on:
    `Encoding.ASCII.GetString`, `ToLower`, `char.IsWhiteSpace`,
    `string.Join` and `string.Split` with a single separator character. */
module Text {

  import opened Wrappers
  import opened Bytes

  /** `Encoding.ASCII` decoding of one byte: 7-bit values keep their code
      point, every other byte becomes the replacement character '?'. */
  function AsciiChar(b: byte): char
  {
    if b < 0x80 then b as char else '?'
  }

  /** `Encoding.ASCII.GetString`: one character per byte, every one of
      them 7-bit; a byte keeps its value exactly when it is 7-bit. */
  function AsciiDecode(bs: seq<byte>): (s: string)
    ensures |s| == |bs|
    ensures forall i :: 0 <= i < |bs| ==> s[i] == AsciiChar(bs[i])
    ensures forall i :: 0 <= i < |s| ==> s[i] as int < 0x80
    ensures forall i :: 0 <= i < |bs| ==> (s[i] as int == bs[i] <==> bs[i] < 0x80)
    ensures '.' in s <==> 0x2E in bs
  {
    seq(|bs|, i requires 0 <= i < |bs| => AsciiChar(bs[i]))
  }

  /** Lower-casing, restricted to the ASCII letters. */
  function LowerChar(c: char): char
  {
    if 'A' <= c <= 'Z' then ((c as int) + 32) as char else c
  }

  /** `ToLower`, on the ASCII letters: no upper-case letter survives, each
      one becomes its lower-case partner, and nothing else changes. */
  function Lower(s: string): (r: string)
    ensures |r| == |s|
    ensures forall i :: 0 <= i < |s| ==> r[i] == LowerChar(s[i])
  {
    seq(|s|, i requires 0 <= i < |s| => LowerChar(s[i]))
  }

  /** Lower-casing twice is lower-casing once, and no upper-case ASCII letter survives it. */
  lemma LowerIdempotent(s: string)
    ensures Lower(Lower(s)) == Lower(s)
    ensures forall i :: 0 <= i < |s| ==> !('A' <= Lower(s)[i] <= 'Z')
  {
  }

  /** Lower-casing turns each upper-case ASCII letter into its lower-case
      partner, 32 code points on, and leaves every other character alone. */
  lemma LowerLetters(s: string, i: nat)
    requires i < |s|
    ensures 'A' <= s[i] <= 'Z' ==> 'a' <= Lower(s)[i] <= 'z' && Lower(s)[i] as int == s[i] as int + 32
    ensures !('A' <= s[i] <= 'Z') ==> Lower(s)[i] == s[i]
  {
  }

  /** Lower-casing commutes with taking a prefix. */
  lemma LowerPrefix(s: string, n: nat)
    requires n <= |s|
    ensures Lower(s[..n]) == Lower(s)[..n]
  {
  }

  /** The characters `char.IsWhiteSpace` accepts: the Unicode White_Space set. */
  predicate IsWhiteSpace(c: char)
  {
    var n := c as int;
    || 0x09 <= n <= 0x0D
    || n == 0x20 || n == 0x85 || n == 0xA0 || n == 0x1680
    || 0x2000 <= n <= 0x200A
    || n == 0x2028 || n == 0x2029 || n == 0x202F || n == 0x205F || n == 0x3000
  }

  /** `TrimStart()`: the text after its leading white space. */
  function TrimStart(s: string): (t: string)
    ensures |t| <= |s| && t == s[|s| - |t|..]
    ensures forall i :: 0 <= i < |s| - |t| ==> IsWhiteSpace(s[i])
    ensures |t| > 0 ==> !IsWhiteSpace(t[0])
    decreases |s|
  {
    if |s| == 0 || !IsWhiteSpace(s[0]) then s
    else
      var t := TrimStart(s[1..]);
      assert s[1..][|s[1..]| - |t|..] == s[|s| - |t|..];
      assert forall i :: 1 <= i < |s| - |t| ==> s[i] == s[1..][i - 1];
      t
  }

  /** `string.IsNullOrWhiteSpace`, with `None` standing for a null string. */
  predicate IsNullOrWhiteSpace(s: Option<string>)
  {
    s.None? || forall i :: 0 <= i < |s.value| ==> IsWhiteSpace(s.value[i])
  }

  /** A string is null or white space exactly when it is null or nothing is
      left of it once the leading white space is trimmed. */
  lemma NullOrWhiteSpaceTrimmed(s: Option<string>)
    ensures IsNullOrWhiteSpace(s) <==> s.None? || TrimStart(s.value) == ""
  {
  }

  /** Lower-casing neither creates nor removes white space. */
  lemma LowerKeepsWhiteSpace(s: string)
    ensures IsNullOrWhiteSpace(Some(Lower(s))) <==> IsNullOrWhiteSpace(Some(s))
  {
    assert forall i :: 0 <= i < |s| ==> (IsWhiteSpace(Lower(s)[i]) <==> IsWhiteSpace(s[i]));
  }

  /** `string.Join(sep, parts)`: the parts in order, the first one leading,
      with one separator between neighbours, so that separator-free parts
      give exactly one separator fewer than there are parts. */
  function Join(parts: seq<string>, sep: char): (s: string)
    decreases |parts|
  {
    if |parts| == 0 then ""
    else if |parts| == 1 then parts[0]
    else parts[0] + [sep] + Join(parts[1..], sep)
  }

  /** A join starts with its first part, and joining separator-free parts
      puts exactly one separator between neighbours. */
  lemma {:induction false} JoinShape(parts: seq<string>, sep: char)
    requires |parts| >= 1
    ensures parts[0] <= Join(parts, sep)
    ensures (forall i :: 0 <= i < |parts| ==> sep !in parts[i]) ==>
              multiset(Join(parts, sep))[sep] == |parts| - 1
    decreases |parts|
  {
    if |parts| > 1 {
      JoinShape(parts[1..], sep);
      assert Join(parts, sep) == parts[0] + ([sep] + Join(parts[1..], sep));
      if forall i :: 0 <= i < |parts| ==> sep !in parts[i] {
        assert forall i :: 0 <= i < |parts[1..]| ==> parts[1..][i] == parts[i + 1];
        assert sep !in parts[0];
      }
    }
  }

  /** `s.Split(sep)`: the maximal separator-free pieces, empty ones included.
      It always yields at least one piece, and joining the pieces gives back `s`. */
  function Split(s: string, sep: char): (parts: seq<string>)
    ensures |parts| >= 1
    ensures forall i :: 0 <= i < |parts| ==> sep !in parts[i]
    ensures Join(parts, sep) == s
    decreases |s|
  {
    if |s| == 0 then [""]
    else
      var rest := Split(s[1..], sep);
      if s[0] == sep then
        assert ([""] + rest)[1..] == rest;
        [""] + rest
      else
        var parts := [[s[0]] + rest[0]] + rest[1..];
        assert parts[1..] == rest[1..];
        assert s == [s[0]] + s[1..];
        parts
  }

  /** The first piece of a split is the text before the first separator. */
  lemma {:induction false} SplitFirst(s: string, sep: char)
    ensures Split(s, sep)[0] <= s
    ensures sep !in Split(s, sep)[0]
    ensures |Split(s, sep)[0]| < |s| ==> s[|Split(s, sep)[0]|] == sep
    decreases |s|
  {
    if |s| > 0 && s[0] != sep {
      SplitFirst(s[1..], sep);
    }
  }

  /** A separator-free string splits into itself. */
  lemma {:induction false} SplitNoSeparator(s: string, sep: char)
    requires sep !in s
    ensures Split(s, sep) == [s]
    decreases |s|
  {
    if |s| > 0 {
      SplitNoSeparator(s[1..], sep);
      assert s == [s[0]] + s[1..];
    }
  }

  /** Splitting distributes over a separator. */
  lemma {:induction false} SplitAtSeparator(a: string, b: string, sep: char)
    ensures Split(a + [sep] + b, sep) == Split(a, sep) + Split(b, sep)
    decreases |a|
  {
    if |a| == 0 {
      assert a + [sep] + b == [sep] + b;
      assert ([sep] + b)[1..] == b;
    } else {
      var s := a + [sep] + b;
      assert s[0] == a[0] && s[1..] == a[1..] + [sep] + b;
      SplitAtSeparator(a[1..], b, sep);
      var tail, head := Split(a[1..], sep), Split(b, sep);
      if a[0] == sep {
        assert Split(s, sep) == [""] + (tail + head);
        assert Split(a, sep) == [""] + tail;
      } else {
        assert (tail + head)[0] == tail[0] && (tail + head)[1..] == tail[1..] + head;
        assert Split(s, sep) == [[a[0]] + tail[0]] + (tail[1..] + head);
        assert Split(a, sep) == [[a[0]] + tail[0]] + tail[1..];
      }
    }
  }

  /** Join and Split are inverse on non-empty sequences of separator-free pieces. */
  lemma {:induction false} SplitJoin(parts: seq<string>, sep: char)
    requires |parts| >= 1
    requires forall i :: 0 <= i < |parts| ==> sep !in parts[i]
    ensures Split(Join(parts, sep), sep) == parts
    decreases |parts|
  {
    SplitNoSeparator(parts[0], sep);
    if |parts| > 1 {
      SplitJoin(parts[1..], sep);
      SplitAtSeparator(parts[0], Join(parts[1..], sep), sep);
      assert parts == [parts[0]] + parts[1..];
    }
  }

  /** Only the first piece of a join decides the first piece of its split. */
  lemma SplitJoinFirst(parts: seq<string>, sep: char)
    requires |parts| >= 1
    ensures Split(Join(parts, sep), sep)[0] == Split(parts[0], sep)[0]
  {
    if |parts| > 1 {
      SplitAtSeparator(parts[0], Join(parts[1..], sep), sep);
    }
  }

}

=== FILE: wrappers.dfy ===
/** The Option type used wherever the C# code returns null or throws an
    exception that its caller turns into "nothing happens". */
module Wrappers {

  datatype Option<+T> = None | Some(value: T)

}
